=== FILE: README.md ===
# Neo-Lab serverless functions: trip scoring, book entitlement, payments

This project models three parts of the Neo-Lab Netlify functions in Dafny:

- **Trip scoring** (`gps-analytics.js`). The basic mode (`calculateBasicAnalytics`) scores a trip from its Haversine distance. The real mode (`calculateWithRealAPIs`) uses the Google Distance Matrix road distance and duration, and falls back to the basic mode when the call throws. The `/calculate` route validates the coordinates, picks the mode (`useRealAPI` defaults to true) and inserts one `gps_analytics` row.
- **Book entitlement** (`book-acces.js`). A bearer-token gate guards four routes:
  - `/check` gives the access verdict: purchase first, then the latest active subscription;
  - `/download` gives the PDF link;
  - `/read/<chapter>` gives chapter content;
  - `/stats` is also behind the gate.
- **Payment lifecycle** (`payment.js`). It acts on a store of three tables: `payments`, `book_access` and `subscriptions`.
  - `/initiate` validates the request, inserts a pending payment and calls one of three mobile-money providers.
  - `/webhook` marks a confirmed payment paid and appends the `book_access` or `subscriptions` row it grants.
  - `/status/<id>` looks up a payment.

The `Lifecycle` module connects the last two parts. A confirmed `book_purchase` gives the buyer `accessType = full`. A confirmed subscription gives access for one month from the confirmation. The entitlement tables only ever grow.

Everything non-deterministic or foreign becomes a parameter:

- the Haversine distance, a function known only to be non-negative;
- the Distance Matrix answer: `Ok(meters, seconds)`, `NotOk` or `Threw`;
- JWT verification, an oracle from a token to an optional user id;
- the payment provider call, a function from the request to `Created(url)` or `Failed`;
- the generated transaction id;
- `NOW()`, and `NOW() + INTERVAL '1 month'` (`addMonth`).

Tables are row sequences; a query without `ORDER BY` reads them in insertion order. A `SELECT … WHERE` is `Tables.Where`, an `INSERT` is an append and an `UPDATE` is a row-wise map. Numbers are Dafny reals. JavaScript truthiness is modelled explicitly: an absent field is `None`, and `0` and `""` are falsy.

Points worth knowing, each proved below:

- **Zero coordinates are rejected.** A coordinate of exactly 0 counts as missing, so trips that start or end on the equator or the prime meridian get a 400.
- **No fallback on a non-OK status.** The real mode falls back only when the provider call throws. A non-`OK` status makes `calculateWithRealAPIs` return `undefined`, and the handler answers 500 without inserting a row.
- **A one-degree trip scores 73.** A 111.19 km trip of 60 minutes costing 1000 scores 73: the hourly-rate term is `min(100, 1000/50) = 20`, which weighs only 6 points (`GpsAnalytics.KnownTripScore`).
- **`/read` is weaker than `/download`.** `/read` accepts any `book_access` row of the user, not only `full` ones.
- **The webhook is not idempotent.** Each confirmation appends another entitlement row.

## Model

| member | source | states |
|---|---|---|
| Js.Round | netlify/functions/gps-analytics.js:218 | `Math.round` yields the integer nearest to x, halves going up: r - 0.5 <= x < r + 0.5 |
| Js.Min | netlify/functions/gps-analytics.js:214 | `Math.min` yields one of its arguments and is below both |
| Js.RemoveFirstAbsent | netlify/functions/book-acces.js:25 | `replace` of a pattern that does not occur leaves the string unchanged (a header without `Bearer ` is used whole as the token) |
| Js.RemoveFirstAt | netlify/functions/book-acces.js:135 | `replace` removes exactly the first occurrence of the pattern and keeps the rest in order |
| Js.RemoveFirstPrefix | netlify/functions/payment.js:170 | a path or header that starts with the prefix yields what follows the prefix |
| Tables.Where | netlify/functions/book-acces.js:50-54 | a `SELECT … WHERE` returns exactly the rows of the table that satisfy the condition, and no more rows than the table has |
| GpsAnalytics.HourlyTerm | netlify/functions/gps-analytics.js:220 | the hourly-rate term is at most 100 and at most hourlyRate/50, and equals one of them (`min(100, hourlyRate/50)`); non-negative for a non-negative rate |
| GpsAnalytics.PriceTerm | netlify/functions/gps-analytics.js:221 | the price term is at most 100 and at most 10 × price per km, and equals one of them (`min(100, pricePerKm*10)`); non-negative for a non-negative price |
| GpsAnalytics.Score | netlify/functions/gps-analytics.js:218-222 | the score is at most 100; below a weighted sum of 99.5 it is the nearest integer to that sum, otherwise exactly 100; it is non-negative for non-negative weights and inputs |
| GpsAnalytics.ScoreMonotone | netlify/functions/gps-analytics.js:267-271 | with non-negative weights, raising efficiency, hourly rate or price per km never lowers the score |
| GpsAnalytics.Speed | netlify/functions/gps-analytics.js:212 | speed is 0 unless the time is positive; otherwise speed × minutes = distance × 60 |
| GpsAnalytics.HourlyRate | netlify/functions/gps-analytics.js:213 | the hourly rate is 0 unless the time is positive; otherwise rate × minutes = price × 60 |
| GpsAnalytics.PricePerKm | netlify/functions/gps-analytics.js:215 | the price per km is 0 unless the distance is positive; otherwise it times the distance is the price |
| GpsAnalytics.SpeedEfficiency | netlify/functions/gps-analytics.js:214 | the basic efficiency is at most 100 and at most 10 × speed, equals one of them, and is non-negative for a non-negative speed |
| GpsAnalytics.RatioEfficiency | netlify/functions/gps-analytics.js:263 | the real-mode efficiency is at most 100 and at most 100 × estimate / actual, and equals one of them, for any non-zero actual time; for a positive actual time it is 100 exactly when the estimate is at least the actual time |
| GpsAnalytics.BasicAnalytics | netlify/functions/gps-analytics.js:197-233 | basic mode: tagged 'haversine'; distance is the Haversine distance; zero speed and rate unless the time is positive; price per km 0 at distance 0; efficiency and score at most 100, and at least 0 for a non-negative price; the score uses the 0.4/0.3/0.3 weights |
| GpsAnalytics.RealAnalytics | netlify/functions/gps-analytics.js:236-290 | real mode: a thrown call gives exactly the basic result; a non-OK status gives nothing; an OK reply gives distance = meters/1000, estimate = seconds/60, actual time = given time if truthy else the estimate, the guarded speed, rate and price, efficiency `min(100, 100 × estimate / actual)` (100 iff estimate >= a positive actual time), and a score with the 0.5/0.3/0.2 weights; for a non-negative price, duration and given time, the actual time is positive and efficiency and score are non-negative |
| GpsAnalytics.KnownTripScore | netlify/functions/gps-analytics.js:197-233 | a 111.19 km trip of 60 minutes costing 1000 gives speed 111.19, hourly rate 1000, efficiency 100 and score 73 |
| GpsAnalytics.EstimateOnlyIsFullyEfficient | netlify/functions/gps-analytics.js:258-263 | without a given time, a route with a positive duration has efficiency 100 |
| GpsAnalytics.Calculate | netlify/functions/gps-analytics.js:45-112 | 400 iff a coordinate is falsy; 500 iff real mode meets a non-OK status; nothing is inserted unless the answer is 200; a 200 inserts exactly one row carrying the result's distance and score; basic mode and a thrown call answer the basic result; an OK reply in real mode answers the real-mode result |
| GpsAnalytics.ZeroCoordinateRejected | netlify/functions/gps-analytics.js:59-65 | a coordinate equal to 0 is rejected with 400 and nothing is inserted |
| GpsAnalytics.BasicModeIgnoresProvider | netlify/functions/gps-analytics.js:79-89 | with `useRealAPI` false, the provider's answer makes no difference |
| GpsAnalytics.FallbackIsBasicMode | netlify/functions/gps-analytics.js:285-288 | when the provider call throws, real mode answers and inserts exactly what basic mode would |
| BookAccess.Latest | netlify/functions/book-acces.js:57-62 | `ORDER BY end_date DESC LIMIT 1` picks a row of the list whose end date is at least every other row's |
| BookAccess.CheckAccess | netlify/functions/book-acces.js:47-91 | hasAccess iff there is a `full` row or an active unexpired subscription; a purchase gives `full` with no expiry; `subscription` iff not purchased but subscribed, with expiry the latest active end date; `none` iff no access; the granted message iff access, and the invitation to buy or subscribe otherwise |
| BookAccess.DownloadGate | netlify/functions/book-acces.js:97-118 | `/download` is allowed iff there is a purchase or an active subscription, which is exactly the `/check` verdict |
| BookAccess.ReadGate | netlify/functions/book-acces.js:138-158 | `/read` is allowed iff the user owns any `book_access` row or holds an active subscription |
| BookAccess.Handle | netlify/functions/book-acces.js:17-210 | OPTIONS is answered first; otherwise 401 iff the token is missing, empty or fails verification, on every path; for a verified user `/check` answers the `CheckAccess` verdict, `/download` answers the PDF link iff there is a purchase or an active subscription and a 403 otherwise, `/read/x` serves chapter x iff the read gate opens and a 403 otherwise, `/stats` answers its report; 404 iff no route matches |
| BookAccess.BearerTokenOf | netlify/functions/book-acces.js:25 | a `Bearer t` header carries the token t |
| BookAccess.EmptyBearerIsMissing | netlify/functions/book-acces.js:25-32 | a header that is only `Bearer ` is a missing token (401) |
| BookAccess.ReadIsWeakerThanDownload | netlify/functions/book-acces.js:97-158 | whoever may download may read |
| BookAccess.NonPurchaseRowOpensReadOnly | netlify/functions/book-acces.js:138-141 | a single non-`full` row opens `/read` while `/download` and `/check` deny |
| Payment.Description | netlify/functions/payment.js:81 | the description is 'Achat LangageNeo' iff the type is `book_purchase`, and 'Abonnement Neo-Lab' otherwise |
| Payment.GatewayCallFor | netlify/functions/payment.js:75-96 | a provider is called iff its name is one of the three known ones; each gets the transaction id, the amount and the type's description; CinetPay and FedaPay get the phone number; only CinetPay gets the operator |
| Payment.Initiate | netlify/functions/payment.js:44-108 | 400 iff a required field is falsy, with nothing written; otherwise exactly one `pending` payment with the given user, amount, type and operator is appended and the other tables are unchanged; 200 iff a known provider answers, carrying its payment URL; otherwise exactly 500 (`ServerError`) |
| Payment.UnknownProviderKeepsPending | netlify/functions/payment.js:67-104 | an unknown provider answers 500 but the pending row stays |
| Payment.MarkPaid | netlify/functions/payment.js:116-120 | the update keeps the table's length and every field other than status; rows with the transaction id become `paid`; the other rows are unchanged |
| Payment.FirstWithTransaction | netlify/functions/payment.js:123-127 | no result iff no row has the id; otherwise the earliest row with that id |
| Payment.FirstAfterMarkPaid | netlify/functions/payment.js:116-127 | the row read back after the update is the first matching row of the original table, now `paid` |
| Payment.Webhook | netlify/functions/payment.js:110-166 | a status other than SUCCESS/ACCEPTED changes nothing and answers `received`; a confirming status marks the rows paid; an unknown id answers 500 with the store unchanged; otherwise `book_purchase` appends one `full` row for the payer, `subscription` appends one active subscription from now to a month later carrying the amount, and the other table is untouched |
| Payment.StatusOf | netlify/functions/payment.js:168-191 | 404 iff no payment has the id; otherwise the first payment with that id |
| Payment.Handle | netlify/functions/payment.js:35-198 | routes POST `/initiate`, POST `/webhook` and GET `/status/<id>`; answers OPTIONS with the preflight and leaves the store alone; only the two POST routes change the store; the route-not-found answer (`RouteNotFound`) iff no route matches |
| Lifecycle.CheckMonotone | netlify/functions/book-acces.js:50-67 | appending rows never takes away access, or `full` access |
| Lifecycle.HandleExtendsStore | netlify/functions/payment.js:35-198 | no route of the payment handler removes or rewrites an entitlement row, or removes a payment |
| Lifecycle.PurchaseGrantsFullAccess | netlify/functions/payment.js:129-135 | after a confirmed `book_purchase`, the payer's `/check` says `full` with no expiry, at any time |
| Lifecycle.SubscriptionGrantsAccess | netlify/functions/payment.js:137-149 | after a confirmed subscription, the payer has access before `addMonth(now)`, one month after the confirmation, and a `subscription` verdict expires no earlier than that |
| Lifecycle.InitiateThenConfirmGrantsFullAccess | netlify/functions/payment.js:63-135 | a valid book-purchase initiation under a fresh id, then a confirming webhook for that id, gives the buyer `full` access |
| Lifecycle.RepeatedConfirmationDuplicatesGrant | netlify/functions/payment.js:114-135 | confirming the same purchase twice appends two `full` rows |
| Lifecycle.StatusAfterInitiate | netlify/functions/payment.js:172-191 | after initiation under a fresh id, `/status` finds exactly the new pending row |
| Lifecycle.StatusAfterConfirm | netlify/functions/payment.js:116-124 | after a confirming webhook, `/status` finds the same payment, now `paid` |

## Left out

- The Haversine trigonometry (`sin`, `cos`, `atan2`, `sqrt`, `toRad`) is not modelled: it is floating-point numerics. The distance is a parameter known only to be non-negative, so its symmetry and the zero distance between equal points are not stated.
- Display rounding with `toFixed`, `parseFloat` and the final `Math.round(hourlyRate)` is not modelled: it is binary-float formatting. Properties are stated on the unrounded values. The stored `distance` is therefore the unrounded one, while the source stores the 2-decimal value.
- GpsAnalytics.RealAnalytics, GpsAnalytics.Calculate: require a non-zero actual time in real mode. With no time given and a zero-second route, the source divides 0 by 0 and scores NaN. Negative times are modelled.
- NaN and non-numeric JSON values are not modelled: an absent `price`, string coordinates, and non-boolean `useRealAPI` values. Prices are reals and `useRealAPI` is an optional boolean.
- The other routes of the GPS handler are left out. `/reverse-geocode` and `/optimal-route` are network calls. `/stats/<id>` is an SQL aggregate. The 404 fallback and OPTIONS of that handler are request plumbing.
- The `/stats` aggregates of the book handler are not computed: SQL counting and summing. The route is modelled only as a 200 behind the token gate.
- Database failures are not modelled: the store always answers, so the 500 that a failing query would produce is absent. Only the 500s caused by the code itself are modelled: a missing analytics object, an unknown provider, a failing provider, and a webhook for an unknown id.
- Payment.FirstWithTransaction: the `SELECT … WHERE transaction_id = …` has no `ORDER BY`, so SQL leaves the order of several rows with the same id unspecified; the model takes the earliest inserted match. This only matters for a duplicated transaction id.
- The provider HTTP calls are replaced by the `GatewayReply` input: CinetPay, FedaPay and PayDunya request bodies, currencies and URLs.
- JWT signing and verification are replaced by an oracle. A verified token whose payload lacks `userId` is not modelled.
- The webhook's `provider` field is not modelled because the source never reads it. The commented-out confirmation email is not modelled either.
- CORS headers, `JSON.parse` of bodies and the stripping of the function-path prefix are not modelled: they are request plumbing.
- `auth.js` and `contact.js` are not part of this model. They hold inserts, lookups, password hashing, token signing and SMTP email, with no decision logic beyond presence checks.

=== FILE: book_access.dfy ===
/**
 The book entitlement handler: a bearer-token gate in front of `/check`,
 `/download`, `/read/<chapter>` and `/stats`. Token verification is an
 oracle from the token to the user id it carries; the tables are the row
 sequences of `Tables`; `now` stands for SQL `NOW()`.
 */
module BookAccess {
  import opened Js
  import opened Tables

  const AccessGranted := "Accès autorisé"
  const AccessInvitation := "Veuillez acheter le livre ou souscrire un abonnement"
  const DownloadUrl := "/assets/langageneo.pdf"
  const BearerPrefix := "Bearer "
  const ReadPrefix := "/read/"

  /** The `accessType` field of the `/check` answer; `NoAccess` is the JSON string 'none'. */
  datatype AccessType = Full | Subscription | NoAccess

  /** The body of a `/check` answer. */
  datatype CheckResult = CheckResult(
    hasAccess: bool, accessType: AccessType, expiryDate: Option<Time>, message: string)

  /** A purchase row of `user`: `access_type = 'full'`. */
  predicate IsPurchaseOf(user: UserId, r: BookAccessRow) {
    r.userId == user && r.accessType == FullAccess
  }

  /** A subscription of `user` that is active and ends after `now`. */
  predicate IsActiveFor(user: UserId, now: Time, s: SubscriptionRow) {
    s.userId == user && s.status == Active && s.endDate > now
  }

  /** The user has bought the book. */
  predicate Purchased(rows: seq<BookAccessRow>, user: UserId) {
    exists r :: r in rows && IsPurchaseOf(user, r)
  }

  /** The user holds an active, unexpired subscription. */
  predicate Subscribed(subs: seq<SubscriptionRow>, user: UserId, now: Time) {
    exists s :: s in subs && IsActiveFor(user, now, s)
  }

  /** The user owns any `book_access` row, whatever its `access_type`. */
  predicate OwnsAnyRow(rows: seq<BookAccessRow>, user: UserId) {
    exists r :: r in rows && r.userId == user
  }

  function PurchasesOf(rows: seq<BookAccessRow>, user: UserId): seq<BookAccessRow> {
    Where(rows, r => IsPurchaseOf(user, r))
  }

  function ActiveSubscriptionsOf(subs: seq<SubscriptionRow>, user: UserId, now: Time): seq<SubscriptionRow> {
    Where(subs, s => IsActiveFor(user, now, s))
  }

  /** `ORDER BY end_date DESC LIMIT 1`: a row with the latest end date. */
  function Latest(subs: seq<SubscriptionRow>): (s: SubscriptionRow)
    requires |subs| > 0
    ensures s in subs
    ensures forall t :: t in subs ==> t.endDate <= s.endDate
  {
    if |subs| == 1 then subs[0]
    else
      var rest := Latest(subs[1..]);
      assert forall t :: t in subs ==> t == subs[0] || t in subs[1..];
      if subs[0].endDate >= rest.endDate then subs[0] else rest
  }

  /** The `/check` decision: purchase first, then the latest active subscription. */
  function CheckAccess(rows: seq<BookAccessRow>, subs: seq<SubscriptionRow>, user: UserId, now: Time)
    : (c: CheckResult)
    ensures c.hasAccess <==> Purchased(rows, user) || Subscribed(subs, user, now)
    ensures Purchased(rows, user) ==> c.accessType == Full && c.expiryDate == None
    ensures c.accessType == Subscription <==> !Purchased(rows, user) && Subscribed(subs, user, now)
    ensures c.accessType == NoAccess <==> !c.hasAccess
    ensures c.accessType != Subscription ==> c.expiryDate == None
    ensures c.accessType == Subscription ==>
              && c.expiryDate.Some?
              && (exists s :: s in subs && IsActiveFor(user, now, s) && s.endDate == c.expiryDate.value)
              && (forall s :: s in subs && IsActiveFor(user, now, s) ==> s.endDate <= c.expiryDate.value)
    ensures c.message == AccessGranted <==> c.hasAccess
    ensures !c.hasAccess ==> c.message == AccessInvitation
  {
    var purchases := PurchasesOf(rows, user);
    var active := ActiveSubscriptionsOf(subs, user, now);
    var hasPurchased := |purchases| > 0;
    var hasActive := |active| > 0;
    var hasAccess := hasPurchased || hasActive;
    assert hasPurchased ==> purchases[0] in purchases;
    assert hasActive ==> active[0] in active;
    var message := if hasAccess then AccessGranted else AccessInvitation;
    if hasPurchased then
      CheckResult(hasAccess, Full, None, message)
    else if hasActive then
      CheckResult(hasAccess, Subscription, Some(Latest(active).endDate), message)
    else
      CheckResult(hasAccess, NoAccess, None, message)
  }

  /** The `/download` gate: refused iff there is no purchase and no active subscription. */
  predicate DownloadAllowed(rows: seq<BookAccessRow>, subs: seq<SubscriptionRow>, user: UserId, now: Time) {
    !(|PurchasesOf(rows, user)| == 0 && |ActiveSubscriptionsOf(subs, user, now)| == 0)
  }

  /** The `/read` gate: any row of the user counts, not only purchases. */
  predicate ReadAllowed(rows: seq<BookAccessRow>, subs: seq<SubscriptionRow>, user: UserId, now: Time) {
    !(|Where(rows, (r: BookAccessRow) => r.userId == user)| == 0 && |ActiveSubscriptionsOf(subs, user, now)| == 0)
  }

  /** `/download` admits exactly the callers `/check` reports as having access. */
  lemma DownloadGate(rows: seq<BookAccessRow>, subs: seq<SubscriptionRow>, user: UserId, now: Time)
    ensures DownloadAllowed(rows, subs, user, now) <==> Purchased(rows, user) || Subscribed(subs, user, now)
    ensures DownloadAllowed(rows, subs, user, now) <==> CheckAccess(rows, subs, user, now).hasAccess
  {
    var purchases := PurchasesOf(rows, user);
    var active := ActiveSubscriptionsOf(subs, user, now);
    if Purchased(rows, user) {
      var r :| r in rows && IsPurchaseOf(user, r);
      assert r in purchases;
    }
    if Subscribed(subs, user, now) {
      var s :| s in subs && IsActiveFor(user, now, s);
      assert s in active;
    }
    if |purchases| > 0 {
      assert purchases[0] in purchases;
    }
    if |active| > 0 {
      assert active[0] in active;
    }
  }

  /** `/read` admits any owner of a `book_access` row, or an active subscriber. */
  lemma ReadGate(rows: seq<BookAccessRow>, subs: seq<SubscriptionRow>, user: UserId, now: Time)
    ensures ReadAllowed(rows, subs, user, now) <==> OwnsAnyRow(rows, user) || Subscribed(subs, user, now)
  {
    var owned := Where(rows, (r: BookAccessRow) => r.userId == user);
    var active := ActiveSubscriptionsOf(subs, user, now);
    if OwnsAnyRow(rows, user) {
      var r :| r in rows && r.userId == user;
      assert r in owned;
    }
    if Subscribed(subs, user, now) {
      var s :| s in subs && IsActiveFor(user, now, s);
      assert s in active;
    }
    if |owned| > 0 {
      assert owned[0] in owned;
    }
    if |active| > 0 {
      assert active[0] in active;
    }
  }

  datatype BookRequest = BookRequest(httpMethod: HttpMethod, path: string, authorization: Option<string>)

  datatype BookResponse =
    | Preflight
    | MissingToken
    | InvalidToken
    | AccessReport(result: CheckResult)
    | DownloadLink(url: string)
    | DownloadRefused
    | ChapterContent(chapter: string)
    | ReadRefused
    | StatsReport
    | RouteNotFound
  {
    function StatusCode(): int {
      match this
      case MissingToken | InvalidToken => 401
      case DownloadRefused | ReadRefused => 403
      case RouteNotFound => 404
      case _ => 200
    }
  }

  /** `authorization?.replace('Bearer ', '')`. */
  function BearerToken(authorization: Option<string>): Option<string> {
    match authorization
    case None => None
    case Some(h) => Some(RemoveFirst(h, BearerPrefix))
  }

  /** The user a request is made on behalf of, if its token is present and verifies. */
  function Caller(req: BookRequest, verify: string -> Option<UserId>): Option<UserId> {
    var token := BearerToken(req.authorization);
    if TruthyString(token) then verify(token.value) else None
  }

  lemma FixedPathsAreNotReads()
    ensures !StartsWith("/check", ReadPrefix)
    ensures !StartsWith("/download", ReadPrefix)
    ensures !StartsWith("/stats", ReadPrefix)
  {
    assert "/check"[1] != ReadPrefix[1];
    assert "/download"[1] != ReadPrefix[1];
    assert "/stats"[1] != ReadPrefix[1];
  }

  /** The handler, for a store that answers every query. */
  function Handle(req: BookRequest, verify: string -> Option<UserId>,
                  rows: seq<BookAccessRow>, subs: seq<SubscriptionRow>, now: Time): (resp: BookResponse)
    ensures req.httpMethod == OPTIONS ==> resp == Preflight
    ensures req.httpMethod != OPTIONS ==>
              (resp.StatusCode() == 401 <==> Caller(req, verify).None?)
    ensures resp == MissingToken <==>
              req.httpMethod != OPTIONS && !TruthyString(BearerToken(req.authorization))
    ensures req.httpMethod != OPTIONS && Caller(req, verify).Some? ==>
              var user := Caller(req, verify).value;
              && (req.httpMethod == GET && req.path == "/check" ==>
                    resp == AccessReport(CheckAccess(rows, subs, user, now))
                    && resp.result.hasAccess == (Purchased(rows, user) || Subscribed(subs, user, now)))
              && (req.httpMethod == GET && req.path == "/download" ==>
                    && (resp == DownloadLink(DownloadUrl) <==> Purchased(rows, user) || Subscribed(subs, user, now))
                    && (resp == DownloadRefused <==> !Purchased(rows, user) && !Subscribed(subs, user, now)))
              && (req.httpMethod == GET && req.path == "/stats" ==> resp == StatsReport)
              && (req.httpMethod == GET && StartsWith(req.path, ReadPrefix) ==>
                    (resp == ReadRefused <==> !OwnsAnyRow(rows, user) && !Subscribed(subs, user, now)))
              && (req.httpMethod == GET && StartsWith(req.path, ReadPrefix) && resp != ReadRefused ==>
                    resp == ChapterContent(req.path[|ReadPrefix|..]))
              && (resp.DownloadLink? ==> resp.url == DownloadUrl)
              && (resp.StatusCode() == 404 <==>
                    !(req.httpMethod == GET && (req.path in {"/check", "/download", "/stats"} || StartsWith(req.path, ReadPrefix))))
  {
    if req.httpMethod == OPTIONS then Preflight
    else
      var token := BearerToken(req.authorization);
      if !TruthyString(token) then MissingToken
      else
        match verify(token.value)
        case None => InvalidToken
        case Some(user) =>
          FixedPathsAreNotReads();
          if req.httpMethod == GET && req.path == "/check" then
            AccessReport(CheckAccess(rows, subs, user, now))
          else if req.httpMethod == GET && req.path == "/download" then
            DownloadGate(rows, subs, user, now);
            if DownloadAllowed(rows, subs, user, now) then DownloadLink(DownloadUrl) else DownloadRefused
          else if req.httpMethod == GET && StartsWith(req.path, ReadPrefix) then
            ReadGate(rows, subs, user, now);
            assert req.path == ReadPrefix + req.path[|ReadPrefix|..];
            RemoveFirstPrefix(ReadPrefix, req.path[|ReadPrefix|..]);
            if ReadAllowed(rows, subs, user, now) then
              ChapterContent(RemoveFirst(req.path, ReadPrefix))
            else ReadRefused
          else if req.httpMethod == GET && req.path == "/stats" then
            StatsReport
          else RouteNotFound
  }

  /** A `Bearer <t>` header carries the token `t`. */
  lemma BearerTokenOf(t: string)
    ensures BearerToken(Some(BearerPrefix + t)) == Some(t)
  {
    RemoveFirstPrefix(BearerPrefix, t);
  }

  /** A header that is only the scheme, `Bearer `, counts as a missing token on every route. */
  lemma EmptyBearerIsMissing(req: BookRequest, verify: string -> Option<UserId>,
                             rows: seq<BookAccessRow>, subs: seq<SubscriptionRow>, now: Time)
    requires req.httpMethod != OPTIONS && req.authorization == Some(BearerPrefix)
    ensures Handle(req, verify, rows, subs, now) == MissingToken
  {
    BearerTokenOf("");
    assert BearerPrefix + "" == BearerPrefix;
  }

  /** Whoever may download may also read. */
  lemma ReadIsWeakerThanDownload(rows: seq<BookAccessRow>, subs: seq<SubscriptionRow>, user: UserId, now: Time)
    ensures DownloadAllowed(rows, subs, user, now) ==> ReadAllowed(rows, subs, user, now)
  {
    DownloadGate(rows, subs, user, now);
    ReadGate(rows, subs, user, now);
  }

  /** A `book_access` row that is not a purchase opens `/read` but not `/download`. */
  lemma NonPurchaseRowOpensReadOnly(user: UserId, now: Time, kind: string)
    requires kind != FullAccess
    ensures ReadAllowed([BookAccessRow(user, kind, now)], [], user, now)
    ensures !DownloadAllowed([BookAccessRow(user, kind, now)], [], user, now)
    ensures !CheckAccess([BookAccessRow(user, kind, now)], [], user, now).hasAccess
  {
    var rows := [BookAccessRow(user, kind, now)];
    assert rows[0] in rows;
    ReadGate(rows, [], user, now);
    DownloadGate(rows, [], user, now);
  }
}

=== FILE: gps_analytics.dfy ===
/**
 Trip scoring and the `/calculate` route of the GPS analytics handler.

 Numbers are Dafny reals: the binary-float rounding of the source and the
 `toFixed` display rounding are not modelled. The Haversine great-circle
 distance is a parameter known only to be non-negative, and the Google
 Distance Matrix answer is an input datatype.
 */
module GpsAnalytics {
  import opened Js

  datatype Coord = Coord(lat: real, lon: real)

  /** A great-circle distance in kilometres: never negative, otherwise unknown. */
  type Haversine = f: (Coord, Coord) -> real | forall a: Coord, b: Coord :: f(a, b) >= 0.0
    witness (a: Coord, b: Coord) => 0.0

  /** The trip as the scoring functions see it; an absent `timeMinutes` is `None`. */
  datatype Trip = Trip(start: Coord, end: Coord, timeMinutes: Option<real>, price: real)

  /** The `method` tag of a result: 'haversine' or 'google_maps_api'. */
  datatype Source = HaversineFormula | GoogleMapsApi

  datatype Analytics = Analytics(
    distance: real,
    speed: real,
    hourlyRate: real,
    efficiency: real,
    pricePerKm: real,
    score: int,
    estimatedTime: Option<real>,
    actualTime: Option<real>,
    source: Source)

  /** The first element of the Distance Matrix answer, or the exception the call raised. */
  datatype DistanceReply = Ok(meters: real, seconds: real) | NotOk | Threw

  /** Weights of efficiency, hourly rate and price per km in the composite score. */
  datatype Weights = Weights(efficiency: real, hourly: real, price: real)

  const BasicWeights := Weights(0.4, 0.3, 0.3)
  const RealWeights := Weights(0.5, 0.3, 0.2)

  /** `timeMinutes > 0`, where `undefined > 0` is false. */
  predicate PositiveTime(t: Option<real>) {
    t.Some? && t.value > 0.0
  }

  /** The hourly-rate term: one point per 50 of hourly rate, at most 100. */
  function HourlyTerm(hourlyRate: real): (h: real)
    ensures h <= 100.0 && h <= hourlyRate / 50.0
    ensures h == 100.0 || h * 50.0 == hourlyRate
    ensures hourlyRate >= 0.0 ==> h >= 0.0
  {
    Min(100.0, hourlyRate / 50.0)
  }

  /** The price term: ten points per unit of price per km, at most 100. */
  function PriceTerm(pricePerKm: real): (p: real)
    ensures p <= 100.0 && p <= 10.0 * pricePerKm
    ensures p == 100.0 || p == 10.0 * pricePerKm
    ensures pricePerKm >= 0.0 ==> p >= 0.0
  {
    Min(100.0, pricePerKm * 10.0)
  }

  function WeightedSum(w: Weights, efficiency: real, hourlyRate: real, pricePerKm: real): real {
    efficiency * w.efficiency + HourlyTerm(hourlyRate) * w.hourly + PriceTerm(pricePerKm) * w.price
  }

  predicate NonNegativeWeights(w: Weights) {
    w.efficiency >= 0.0 && w.hourly >= 0.0 && w.price >= 0.0
  }

  lemma WeightedSumNonNegative(w: Weights, efficiency: real, hourlyRate: real, pricePerKm: real)
    requires NonNegativeWeights(w) && efficiency >= 0.0 && hourlyRate >= 0.0 && pricePerKm >= 0.0
    ensures WeightedSum(w, efficiency, hourlyRate, pricePerKm) >= 0.0
  {
    var h := HourlyTerm(hourlyRate);
    var p := PriceTerm(pricePerKm);
    assert efficiency * w.efficiency >= 0.0;
    assert h * w.hourly >= 0.0;
    assert p * w.price >= 0.0;
  }

  /** `Math.min(100, Math.round(weighted sum))`. */
  function Score(w: Weights, efficiency: real, hourlyRate: real, pricePerKm: real): (s: int)
    ensures s <= 100
    ensures var x := WeightedSum(w, efficiency, hourlyRate, pricePerKm);
            if x < 99.5 then s as real - 0.5 <= x < s as real + 0.5 else s == 100
    ensures (NonNegativeWeights(w) && efficiency >= 0.0 && hourlyRate >= 0.0 && pricePerKm >= 0.0)
            ==> s >= 0
  {
    var x := WeightedSum(w, efficiency, hourlyRate, pricePerKm);
    var s := if Round(x) <= 100 then Round(x) else 100;
    if NonNegativeWeights(w) && efficiency >= 0.0 && hourlyRate >= 0.0 && pricePerKm >= 0.0 then
      WeightedSumNonNegative(w, efficiency, hourlyRate, pricePerKm);
      s
    else s
  }

  /** `perHour` is `total` spread over `minutes` minutes, per hour. */
  predicate PerHour(perHour: real, minutes: real, total: real) {
    perHour * minutes == total * 60.0
  }

  /** `share` is `total` divided into `parts`. */
  predicate Share(share: real, parts: real, total: real) {
    share * parts == total
  }

  /** The speed in km/h over `minutes` minutes, 0 unless the time is positive. */
  function Speed(distance: real, minutes: Option<real>): (v: real)
    ensures !PositiveTime(minutes) ==> v == 0.0
    ensures PositiveTime(minutes) ==> PerHour(v, minutes.value, distance)
    ensures distance >= 0.0 ==> v >= 0.0
  {
    if PositiveTime(minutes) then
      var m := minutes.value;
      assert distance / (m / 60.0) == distance * 60.0 / m;
      distance / (m / 60.0)
    else 0.0
  }

  /** The price per hour over `minutes` minutes, 0 unless the time is positive. */
  function HourlyRate(price: real, minutes: Option<real>): (h: real)
    ensures !PositiveTime(minutes) ==> h == 0.0
    ensures PositiveTime(minutes) ==> PerHour(h, minutes.value, price)
    ensures price >= 0.0 ==> h >= 0.0
  {
    if PositiveTime(minutes) then
      var m := minutes.value;
      assert (price / m) * 60.0 == price * 60.0 / m;
      (price / m) * 60.0
    else 0.0
  }

  /** The price per km, 0 unless the distance is positive. */
  function PricePerKm(price: real, distance: real): (p: real)
    ensures distance > 0.0 ==> Share(p, distance, price)
    ensures distance <= 0.0 ==> p == 0.0
    ensures price >= 0.0 ==> p >= 0.0
  {
    if distance > 0.0 then price / distance else 0.0
  }

  /** The basic efficiency: ten points per km/h, at most 100. */
  function SpeedEfficiency(speed: real): (e: real)
    ensures e <= 100.0 && e <= speed * 10.0
    ensures e == 100.0 || e == speed * 10.0
    ensures speed >= 0.0 ==> e >= 0.0
  {
    Min(100.0, speed * 10.0)
  }

  /** The real-mode efficiency: the estimated time as a percentage of the actual time, at most 100. */
  function RatioEfficiency(estimatedTime: real, actualTime: real): (e: real)
    requires actualTime != 0.0
    ensures e <= 100.0 && e <= (estimatedTime / actualTime) * 100.0
    ensures e == 100.0 || Share(e, actualTime, estimatedTime * 100.0)
    ensures actualTime > 0.0 ==> (e == 100.0 <==> estimatedTime >= actualTime)
    ensures actualTime > 0.0 && estimatedTime >= 0.0 ==> e >= 0.0
  {
    var ratio := (estimatedTime / actualTime) * 100.0;
    RatioFacts(estimatedTime, actualTime);
    Min(100.0, ratio)
  }

  lemma RatioFacts(estimatedTime: real, actualTime: real)
    requires actualTime != 0.0
    ensures (estimatedTime / actualTime) * 100.0 * actualTime == estimatedTime * 100.0
    ensures actualTime > 0.0 ==> ((estimatedTime / actualTime) * 100.0 >= 100.0 <==> estimatedTime >= actualTime)
    ensures actualTime > 0.0 && estimatedTime >= 0.0 ==> (estimatedTime / actualTime) * 100.0 >= 0.0
  {
    var q := estimatedTime / actualTime;
    assert q * actualTime == estimatedTime;
    if actualTime > 0.0 {
      assert q >= 1.0 <==> estimatedTime >= actualTime;
    }
  }

  /** `calculateBasicAnalytics`: Haversine distance and a speed-based efficiency. */
  function BasicAnalytics(t: Trip, haversine: Haversine): (a: Analytics)
    ensures a.source == HaversineFormula && a.estimatedTime == None && a.actualTime == None
    ensures a.distance == haversine(t.start, t.end) && a.distance >= 0.0
    ensures !PositiveTime(t.timeMinutes) ==> a.speed == 0.0 && a.hourlyRate == 0.0
    ensures PositiveTime(t.timeMinutes) ==>
              && PerHour(a.speed, t.timeMinutes.value, a.distance)
              && PerHour(a.hourlyRate, t.timeMinutes.value, t.price)
    ensures a.distance > 0.0 ==> Share(a.pricePerKm, a.distance, t.price)
    ensures a.distance == 0.0 ==> a.pricePerKm == 0.0
    ensures a.efficiency == 100.0 || a.efficiency == a.speed * 10.0
    ensures a.efficiency <= 100.0 && a.efficiency <= a.speed * 10.0
    ensures a.score <= 100
    ensures t.price >= 0.0 ==> 0.0 <= a.efficiency && 0 <= a.score
    ensures a.score == Score(BasicWeights, a.efficiency, a.hourlyRate, a.pricePerKm)
  {
    var distance := haversine(t.start, t.end);
    var speed := Speed(distance, t.timeMinutes);
    var hourlyRate := HourlyRate(t.price, t.timeMinutes);
    var efficiency := SpeedEfficiency(speed);
    var pricePerKm := PricePerKm(t.price, distance);
    Analytics(distance, speed, hourlyRate, efficiency, pricePerKm,
              Score(BasicWeights, efficiency, hourlyRate, pricePerKm),
              None, None, HaversineFormula)
  }

  /** `timeMinutes || estimatedTime`: the given time unless it is absent or zero. */
  function ActualTime(timeMinutes: Option<real>, estimatedTime: real): real {
    if TruthyNumber(timeMinutes) then timeMinutes.value else estimatedTime
  }

  /**
   The efficiency ratio of the real mode divides by the actual time without a
   guard; only a zero actual time (no time given and a zero-second route) is
   outside the model, where the source computes NaN.
   */
  predicate RealModeDefined(t: Trip, reply: DistanceReply) {
    reply.Ok? ==> ActualTime(t.timeMinutes, reply.seconds / 60.0) != 0.0
  }

  /**
   `calculateWithRealAPIs`: road distance and duration from the provider;
   `None` is the `undefined` the function falls through to when the status is
   not 'OK', and an exception falls back to the basic computation.
   */
  function RealAnalytics(t: Trip, haversine: Haversine, reply: DistanceReply): (r: Option<Analytics>)
    requires RealModeDefined(t, reply)
    ensures reply.Threw? ==> r == Some(BasicAnalytics(t, haversine))
    ensures reply.NotOk? ==> r == None
    ensures reply.Ok? ==>
              && r.Some?
              && var a := r.value;
              && a.source == GoogleMapsApi
              && Share(a.distance, 1000.0, reply.meters)
              && a.estimatedTime.Some? && Share(a.estimatedTime.value, 60.0, reply.seconds)
              && a.actualTime.Some?
              && (TruthyNumber(t.timeMinutes) ==> a.actualTime.value == t.timeMinutes.value)
              && (!TruthyNumber(t.timeMinutes) ==> a.actualTime == a.estimatedTime)
              && (a.actualTime.value > 0.0 ==>
                    PerHour(a.speed, a.actualTime.value, a.distance)
                    && PerHour(a.hourlyRate, a.actualTime.value, t.price))
              && (a.actualTime.value <= 0.0 ==> a.speed == 0.0 && a.hourlyRate == 0.0)
              && (a.distance > 0.0 ==> Share(a.pricePerKm, a.distance, t.price))
              && (a.distance <= 0.0 ==> a.pricePerKm == 0.0)
              && a.actualTime.value != 0.0
              && a.efficiency <= 100.0
              && a.efficiency <= (a.estimatedTime.value / a.actualTime.value) * 100.0
              && (a.efficiency == 100.0 || Share(a.efficiency, a.actualTime.value, a.estimatedTime.value * 100.0))
              && (a.actualTime.value > 0.0 ==> (a.efficiency == 100.0 <==> a.estimatedTime.value >= a.actualTime.value))
              && a.score <= 100
              && a.score == Score(RealWeights, a.efficiency, a.hourlyRate, a.pricePerKm)
    ensures reply.Ok? && reply.seconds >= 0.0 && t.price >= 0.0
            && (t.timeMinutes.Some? ==> t.timeMinutes.value >= 0.0) ==>
              r.value.actualTime.value > 0.0 && r.value.efficiency >= 0.0 && r.value.score >= 0
  {
    match reply
    case Threw => Some(BasicAnalytics(t, haversine))
    case NotOk => None
    case Ok(meters, seconds) =>
      var distance := meters / 1000.0;
      var estimatedTime := seconds / 60.0;
      var actualTime := ActualTime(t.timeMinutes, estimatedTime);
      var speed := Speed(distance, Some(actualTime));
      var hourlyRate := HourlyRate(t.price, Some(actualTime));
      var efficiency := RatioEfficiency(estimatedTime, actualTime);
      var pricePerKm := PricePerKm(t.price, distance);
      Some(Analytics(distance, speed, hourlyRate, efficiency, pricePerKm,
                     Score(RealWeights, efficiency, hourlyRate, pricePerKm),
                     Some(estimatedTime), Some(actualTime), GoogleMapsApi))
  }

  /** Raising any input of the score never lowers it, for non-negative weights. */
  lemma ScoreMonotone(w: Weights, e1: real, e2: real, h1: real, h2: real, p1: real, p2: real)
    requires NonNegativeWeights(w)
    requires e1 <= e2 && h1 <= h2 && p1 <= p2
    ensures Score(w, e1, h1, p1) <= Score(w, e2, h2, p2)
  {
    assert h1 / 50.0 <= h2 / 50.0;
    MinMonotone(100.0, h1 / 50.0, h2 / 50.0);
    assert HourlyTerm(h1) <= HourlyTerm(h2);
    MinMonotone(100.0, p1 * 10.0, p2 * 10.0);
    assert PriceTerm(p1) <= PriceTerm(p2);
    var a1, a2 := e1 * w.efficiency, e2 * w.efficiency;
    var b1, b2 := HourlyTerm(h1) * w.hourly, HourlyTerm(h2) * w.hourly;
    var c1, c2 := PriceTerm(p1) * w.price, PriceTerm(p2) * w.price;
    assert a1 <= a2;
    assert b1 <= b2;
    assert c1 <= c2;
    var x1 := WeightedSum(w, e1, h1, p1);
    var x2 := WeightedSum(w, e2, h2, p2);
    assert x1 == a1 + b1 + c1;
    assert x2 == a2 + b2 + c2;
    RoundMonotone(x1, x2);
  }

  /**
   A 111.19 km trip (one degree of arc) in an hour for 1000.
   Efficiency saturates at 100, the hourly term is 1000 / 50 = 20 and the
   price term 10 * 1000 / 111.19, so the score is round(40 + 6 + 26.98) = 73.
   */
  lemma KnownTripScore(start: Coord, end: Coord, haversine: Haversine)
    requires haversine(start, end) == 111.19
    ensures var a := BasicAnalytics(Trip(start, end, Some(60.0), 1000.0), haversine);
            a.speed == 111.19 && a.hourlyRate == 1000.0 && a.efficiency == 100.0 && a.score == 73
  {
    var a := BasicAnalytics(Trip(start, end, Some(60.0), 1000.0), haversine);
    assert a.speed == 111.19;
    assert a.hourlyRate == 1000.0;
    assert a.pricePerKm == 1000.0 / 111.19;
    var x := WeightedSum(BasicWeights, 100.0, 1000.0, 1000.0 / 111.19);
    assert 72.5 <= x < 73.5;
  }

  /** Without a given time, the actual time is the estimate and the trip is fully efficient. */
  lemma EstimateOnlyIsFullyEfficient(t: Trip, haversine: Haversine, meters: real, seconds: real)
    requires !TruthyNumber(t.timeMinutes) && seconds > 0.0
    ensures RealModeDefined(t, Ok(meters, seconds))
    ensures var r := RealAnalytics(t, haversine, Ok(meters, seconds));
            r.Some? && r.value.efficiency == 100.0
  {
  }

  /** The JSON body of a `/calculate` request, already parsed. */
  datatype CalcBody = CalcBody(
    userId: Option<string>,
    serviceType: Option<string>,
    latStart: Option<real>,
    lonStart: Option<real>,
    latEnd: Option<real>,
    lonEnd: Option<real>,
    timeMinutes: Option<real>,
    price: real,
    useRealAPI: Option<bool>)

  /** A row of the `gps_analytics` table. */
  datatype GpsRow = GpsRow(
    userId: Option<string>, serviceType: Option<string>, start: Coord, end: Coord,
    distance: real, timeMinutes: Option<real>, price: real, score: int)

  datatype CalcResponse = MissingCoordinates | Calculated(analytics: Analytics) | ServerError {
    function StatusCode(): int {
      match this
      case MissingCoordinates => 400
      case Calculated(_) => 200
      case ServerError => 500
    }
  }

  datatype CalcOutcome = CalcOutcome(response: CalcResponse, table: seq<GpsRow>)

  /** The validation `!latStart || !lonStart || !latEnd || !lonEnd` passes. */
  predicate CoordinatesPresent(b: CalcBody) {
    TruthyNumber(b.latStart) && TruthyNumber(b.lonStart) && TruthyNumber(b.latEnd) && TruthyNumber(b.lonEnd)
  }

  /** `useRealAPI = true` as a destructuring default. */
  predicate UsesRealApi(b: CalcBody) {
    b.useRealAPI != Some(false)
  }

  function TripOf(b: CalcBody): Trip
    requires CoordinatesPresent(b)
  {
    Trip(Coord(b.latStart.value, b.lonStart.value), Coord(b.latEnd.value, b.lonEnd.value), b.timeMinutes, b.price)
  }

  predicate CalculateDefined(b: CalcBody, reply: DistanceReply) {
    CoordinatesPresent(b) && UsesRealApi(b) ==> RealModeDefined(TripOf(b), reply)
  }

  /** The row inserted for a computed trip; a falsy user id is stored as null. */
  function RowOf(b: CalcBody, a: Analytics): GpsRow
    requires CoordinatesPresent(b)
  {
    var t := TripOf(b);
    GpsRow(if TruthyString(b.userId) then b.userId else None, b.serviceType,
           t.start, t.end, a.distance, b.timeMinutes, b.price, a.score)
  }

  /** `POST /calculate`: validate, score in the chosen mode, insert one row, answer. */
  function Calculate(b: CalcBody, haversine: Haversine, reply: DistanceReply, table: seq<GpsRow>)
    : (out: CalcOutcome)
    requires CalculateDefined(b, reply)
    ensures out.response == MissingCoordinates <==> !CoordinatesPresent(b)
    ensures out.response == ServerError <==> CoordinatesPresent(b) && UsesRealApi(b) && reply.NotOk?
    ensures out.response.StatusCode() != 200 ==> out.table == table
    ensures out.response.Calculated? ==>
              && CoordinatesPresent(b)
              && out.table == table + [RowOf(b, out.response.analytics)]
              && out.response.analytics.score <= 100
    ensures CoordinatesPresent(b) && (!UsesRealApi(b) || reply.Threw?) ==>
              out.response == Calculated(BasicAnalytics(TripOf(b), haversine))
    ensures CoordinatesPresent(b) && UsesRealApi(b) && reply.Ok? ==>
              && out.response.Calculated? && out.response.analytics.source == GoogleMapsApi
              && out.response == Calculated(RealAnalytics(TripOf(b), haversine, reply).value)
  {
    if !CoordinatesPresent(b) then
      CalcOutcome(MissingCoordinates, table)
    else
      var analytics :=
        if UsesRealApi(b) then RealAnalytics(TripOf(b), haversine, reply)
        else Some(BasicAnalytics(TripOf(b), haversine));
      match analytics
      case None => CalcOutcome(ServerError, table)
      case Some(a) => CalcOutcome(Calculated(a), table + [RowOf(b, a)])
  }

  /** A coordinate of exactly 0 (the equator, the prime meridian) is rejected like a missing one. */
  lemma ZeroCoordinateRejected(b: CalcBody, haversine: Haversine, reply: DistanceReply, table: seq<GpsRow>)
    requires b.latStart == Some(0.0) || b.lonStart == Some(0.0) || b.latEnd == Some(0.0) || b.lonEnd == Some(0.0)
    ensures CalculateDefined(b, reply)
    ensures Calculate(b, haversine, reply, table) == CalcOutcome(MissingCoordinates, table)
  {
  }

  /** In basic mode the provider is never consulted. */
  lemma BasicModeIgnoresProvider(b: CalcBody, haversine: Haversine, r1: DistanceReply, r2: DistanceReply,
                                 table: seq<GpsRow>)
    requires b.useRealAPI == Some(false)
    ensures CalculateDefined(b, r1) && CalculateDefined(b, r2)
    ensures Calculate(b, haversine, r1, table) == Calculate(b, haversine, r2, table)
  {
  }

  /** When the provider call throws, the real mode answers and stores exactly what basic mode would. */
  lemma FallbackIsBasicMode(b: CalcBody, haversine: Haversine, table: seq<GpsRow>)
    requires UsesRealApi(b)
    ensures Calculate(b, haversine, Threw, table)
            == Calculate(b.(useRealAPI := Some(false)), haversine, Threw, table)
  {
  }
}

=== FILE: js.dfy ===
/**
 The few pieces of JavaScript semantics the handlers rely on: optional JSON
 fields, truthiness of those fields, `Math.min`, `Math.round` and the
 first-occurrence `String.prototype.replace` used to strip prefixes.
 */
module Js {

  /** A JSON field that may be absent (`undefined`). */
  datatype Option<+T> = None | Some(value: T)

  /** `event.httpMethod`, as far as the handlers distinguish it. */
  datatype HttpMethod = GET | POST | OPTIONS | OtherMethod

  /** `s.startsWith(prefix)`. */
  predicate StartsWith(s: string, prefix: string) {
    |prefix| <= |s| && s[..|prefix|] == prefix
  }

  /** `!!s` for a string field: absent and the empty string are falsy. */
  predicate TruthyString(o: Option<string>) {
    o.Some? && o.value != ""
  }

  /** `!!x` for a numeric field: absent and zero are falsy (NaN is not modelled). */
  predicate TruthyNumber(o: Option<real>) {
    o.Some? && o.value != 0.0
  }

  /** `Math.min(a, b)`. */
  function Min(a: real, b: real): (r: real)
    ensures r <= a && r <= b
    ensures r == a || r == b
  {
    if a <= b then a else b
  }

  /** `Math.round(x)`: the nearest integer, halves rounded towards +infinity. */
  function Round(x: real): (r: int)
    ensures r as real - 0.5 <= x < r as real + 0.5
  {
    (x + 0.5).Floor
  }

  lemma RoundMonotone(x: real, y: real)
    requires x <= y
    ensures Round(x) <= Round(y)
  {
  }

  lemma MinMonotone(a: real, b: real, c: real)
    requires b <= c
    ensures Min(a, b) <= Min(a, c)
  {
  }

  /** `pat` occurs in `s` starting at index `i`. */
  predicate OccursAt(s: string, pat: string, i: int) {
    0 <= i && i + |pat| <= |s| && s[i..i + |pat|] == pat
  }

  /** `s.replace(pat, '')` for a string pattern: removes the first occurrence of `pat`, if any. */
  function RemoveFirst(s: string, pat: string): string
    decreases |s|
  {
    if |s| < |pat| then s
    else if s[..|pat|] == pat then s[|pat|..]
    else [s[0]] + RemoveFirst(s[1..], pat)
  }

  /** Occurrences in the tail of `s` are the occurrences in `s` shifted by one. */
  lemma ShiftOccurrence(s: string, pat: string, i: int)
    requires |s| > 0 && 1 <= i
    ensures OccursAt(s, pat, i) <==> OccursAt(s[1..], pat, i - 1)
  {
    if i + |pat| <= |s| {
      assert s[1..][i - 1..i - 1 + |pat|] == s[i..i + |pat|];
    }
  }

  /** Without an occurrence of `pat`, `replace` leaves the string as it is. */
  lemma {:induction false} RemoveFirstAbsent(s: string, pat: string)
    requires forall i :: !OccursAt(s, pat, i)
    ensures RemoveFirst(s, pat) == s
    decreases |s|
  {
    if |s| < |pat| {
    } else {
      assert !OccursAt(s, pat, 0);
      assert s[0..|pat|] == s[..|pat|];
      forall i
        ensures !OccursAt(s[1..], pat, i)
      {
        if 0 <= i {
          ShiftOccurrence(s, pat, i + 1);
        }
      }
      RemoveFirstAbsent(s[1..], pat);
      assert [s[0]] + s[1..] == s;
    }
  }

  /** The first occurrence of `pat` at `i > 0` in `s` is the first occurrence at `i - 1` in its tail. */
  lemma FirstOccurrenceInTail(s: string, pat: string, i: int)
    requires 0 < i && OccursAt(s, pat, i)
    requires forall j :: 0 <= j < i ==> !OccursAt(s, pat, j)
    ensures OccursAt(s[1..], pat, i - 1)
    ensures forall j :: 0 <= j < i - 1 ==> !OccursAt(s[1..], pat, j)
  {
    ShiftOccurrence(s, pat, i);
    forall j | 0 <= j < i - 1
      ensures !OccursAt(s[1..], pat, j)
    {
      ShiftOccurrence(s, pat, j + 1);
    }
  }

  /** With a first occurrence at `i`, `replace` cuts out exactly that occurrence. */
  lemma {:induction false} RemoveFirstAt(s: string, pat: string, i: int)
    requires OccursAt(s, pat, i)
    requires forall j :: 0 <= j < i ==> !OccursAt(s, pat, j)
    ensures RemoveFirst(s, pat) == s[..i] + s[i + |pat|..]
    decreases |s|
  {
    if i == 0 {
      assert s[0..|pat|] == s[..|pat|];
    } else {
      var t := s[1..];
      assert !OccursAt(s, pat, 0);
      assert s[0..|pat|] == s[..|pat|];
      assert RemoveFirst(s, pat) == [s[0]] + RemoveFirst(t, pat);
      FirstOccurrenceInTail(s, pat, i);
      RemoveFirstAt(t, pat, i - 1);
      assert [s[0]] + t[..i - 1] == s[..i];
      assert t[i - 1 + |pat|..] == s[i + |pat|..];
    }
  }

  /** A string that starts with `pat` loses exactly that prefix. */
  lemma RemoveFirstPrefix(pat: string, rest: string)
    ensures RemoveFirst(pat + rest, pat) == rest
  {
    var s := pat + rest;
    assert s[0..|pat|] == pat;
    RemoveFirstAt(s, pat, 0);
    assert s[|pat|..] == rest;
  }
}

=== FILE: lifecycle.dfy ===
/**
 How the payment handler's writes feed the book handler's reads: a confirmed
 payment produces exactly the row the entitlement check looks for, and the
 entitlement tables only ever grow.
 */
module Lifecycle {
  import opened Js
  import opened Tables
  import BookAccess
  import Payment

  /** A store `after` extends `before`: every table keeps its rows and may gain more at the end. */
  predicate Extends(before: Store, after: Store) {
    && |before.payments| <= |after.payments|
    && before.bookAccess <= after.bookAccess
    && before.subscriptions <= after.subscriptions
  }

  /** Appending rows never takes an entitlement away. */
  lemma CheckMonotone(rows: seq<BookAccessRow>, rows': seq<BookAccessRow>,
                      subs: seq<SubscriptionRow>, subs': seq<SubscriptionRow>, user: UserId, now: Time)
    requires rows <= rows' && subs <= subs'
    ensures BookAccess.CheckAccess(rows, subs, user, now).hasAccess
            ==> BookAccess.CheckAccess(rows', subs', user, now).hasAccess
    ensures BookAccess.CheckAccess(rows, subs, user, now).accessType == BookAccess.Full
            ==> BookAccess.CheckAccess(rows', subs', user, now).accessType == BookAccess.Full
  {
    if BookAccess.Purchased(rows, user) {
      var r :| r in rows && BookAccess.IsPurchaseOf(user, r);
      var i :| 0 <= i < |rows| && rows[i] == r;
      assert rows'[i] == r;
    }
    if BookAccess.Subscribed(subs, user, now) {
      var s :| s in subs && BookAccess.IsActiveFor(user, now, s);
      var i :| 0 <= i < |subs| && subs[i] == s;
      assert subs'[i] == s;
    }
  }

  /** Every route of the payment handler only appends to the entitlement tables. */
  lemma HandleExtendsStore(req: Payment.PaymentRequest, store: Store, transactionId: string,
                           gateway: Payment.GatewayCall -> Payment.GatewayReply, now: Time, addMonth: Time -> Time)
    ensures Extends(store, Payment.Handle(req, store, transactionId, gateway, now, addMonth).store)
  {
    var out := Payment.Handle(req, store, transactionId, gateway, now, addMonth);
    if req.httpMethod == POST && req.path == "/webhook" && Payment.Confirms(req.body.status)
       && Payment.FirstWithTransaction(store.payments, req.body.transactionId).Some? {
      var p := Payment.FirstWithTransaction(store.payments, req.body.transactionId).value;
      if p.paymentType == BookPurchase {
        assert out.store.bookAccess == store.bookAccess + [BookAccessRow(p.userId, FullAccess, now)];
      } else if p.paymentType == SubscriptionType {
        assert out.store.subscriptions
               == store.subscriptions + [SubscriptionRow(p.userId, now, addMonth(now), Active, p.amount)];
      }
    }
  }

  /** After a confirmed book purchase, the buyer's check answers `full`, at any time. */
  lemma PurchaseGrantsFullAccess(store: Store, b: Payment.PaymentBody, now: Time, addMonth: Time -> Time,
                                 checkedAt: Time)
    requires Payment.Confirms(b.status)
    requires Payment.FirstWithTransaction(store.payments, b.transactionId).Some?
    requires Payment.FirstWithTransaction(store.payments, b.transactionId).value.paymentType == BookPurchase
    ensures var user := Payment.FirstWithTransaction(store.payments, b.transactionId).value.userId;
            var after := Payment.Webhook(store, b, now, addMonth).store;
            var c := BookAccess.CheckAccess(after.bookAccess, after.subscriptions, user, checkedAt);
            c.hasAccess && c.accessType == BookAccess.Full && c.expiryDate == None
  {
    var p := Payment.FirstWithTransaction(store.payments, b.transactionId).value;
    var after := Payment.Webhook(store, b, now, addMonth).store;
    var row := BookAccessRow(p.userId, FullAccess, now);
    assert after.bookAccess[|store.bookAccess|] == row;
    assert BookAccess.IsPurchaseOf(p.userId, row);
  }

  /**
   After a confirmed subscription, the subscriber has access until
   `addMonth(now)`, one month after the confirmation, and without a purchase the check reports a subscription expiring no
   earlier than the new row's end date.
   */
  lemma SubscriptionGrantsAccess(store: Store, b: Payment.PaymentBody, now: Time, addMonth: Time -> Time,
                                 checkedAt: Time)
    requires Payment.Confirms(b.status)
    requires Payment.FirstWithTransaction(store.payments, b.transactionId).Some?
    requires Payment.FirstWithTransaction(store.payments, b.transactionId).value.paymentType == SubscriptionType
    requires checkedAt < addMonth(now)
    ensures var user := Payment.FirstWithTransaction(store.payments, b.transactionId).value.userId;
            var after := Payment.Webhook(store, b, now, addMonth).store;
            var c := BookAccess.CheckAccess(after.bookAccess, after.subscriptions, user, checkedAt);
            && c.hasAccess
            && (c.accessType == BookAccess.Full || c.accessType == BookAccess.Subscription)
            && (c.accessType == BookAccess.Subscription ==> c.expiryDate.value >= addMonth(now))
  {
    var p := Payment.FirstWithTransaction(store.payments, b.transactionId).value;
    var after := Payment.Webhook(store, b, now, addMonth).store;
    var row := SubscriptionRow(p.userId, now, addMonth(now), Active, p.amount);
    assert after.subscriptions[|store.subscriptions|] == row;
    assert BookAccess.IsActiveFor(p.userId, checkedAt, row);
  }

  /**
   The whole purchase: initiating a valid book purchase under a fresh
   transaction id and then confirming that id gives the buyer full access.
   */
  lemma InitiateThenConfirmGrantsFullAccess(store: Store, b: Payment.PaymentBody, transactionId: string,
                                            gateway: Payment.GatewayCall -> Payment.GatewayReply,
                                            hook: Payment.PaymentBody, now: Time, addMonth: Time -> Time,
                                            checkedAt: Time)
    requires Payment.ValidInitiation(b) && b.paymentType == Some(BookPurchase)
    requires forall p :: p in store.payments ==> p.transactionId != transactionId
    requires hook.transactionId == Some(transactionId) && Payment.Confirms(hook.status)
    ensures var initiated := Payment.Initiate(store, b, transactionId, gateway).store;
            var confirmed := Payment.Webhook(initiated, hook, now, addMonth).store;
            var c := BookAccess.CheckAccess(confirmed.bookAccess, confirmed.subscriptions, b.userId.value, checkedAt);
            c.accessType == BookAccess.Full && c.hasAccess
  {
    var initiated := Payment.Initiate(store, b, transactionId, gateway).store;
    var pending := Payment.PendingPayment(b, transactionId);
    var n := |store.payments|;
    assert initiated.payments[n] == pending;
    assert forall i :: 0 <= i < n ==> !Payment.HasTransaction(initiated.payments[i], hook.transactionId) by {
      forall i | 0 <= i < n
        ensures !Payment.HasTransaction(initiated.payments[i], hook.transactionId)
      {
        assert initiated.payments[i] == store.payments[i];
        assert store.payments[i] in store.payments;
      }
    }
    var first := Payment.FirstWithTransaction(initiated.payments, hook.transactionId);
    assert Payment.HasTransaction(initiated.payments[n], hook.transactionId);
    var k :| 0 <= k < |initiated.payments| && initiated.payments[k] == first.value
             && Payment.HasTransaction(initiated.payments[k], hook.transactionId)
             && forall j :: 0 <= j < k ==> !Payment.HasTransaction(initiated.payments[j], hook.transactionId);
    assert k == n;
    PurchaseGrantsFullAccess(initiated, hook, now, addMonth, checkedAt);
  }

  /** Confirming the same purchase twice grants two `full` rows: the webhook is not idempotent. */
  lemma RepeatedConfirmationDuplicatesGrant(store: Store, b: Payment.PaymentBody, now: Time, addMonth: Time -> Time)
    requires Payment.Confirms(b.status)
    requires Payment.FirstWithTransaction(store.payments, b.transactionId).Some?
    requires Payment.FirstWithTransaction(store.payments, b.transactionId).value.paymentType == BookPurchase
    ensures var once := Payment.Webhook(store, b, now, addMonth).store;
            var twice := Payment.Webhook(once, b, now, addMonth).store;
            |twice.bookAccess| == |store.bookAccess| + 2
  {
    var once := Payment.Webhook(store, b, now, addMonth).store;
    Payment.FirstAfterMarkPaid(store.payments, b.transactionId);
  }

  /** A fresh transaction id stays findable after `/initiate`: `/status` then reports the pending row. */
  lemma StatusAfterInitiate(store: Store, b: Payment.PaymentBody, transactionId: string,
                            gateway: Payment.GatewayCall -> Payment.GatewayReply)
    requires Payment.ValidInitiation(b)
    requires forall p :: p in store.payments ==> p.transactionId != transactionId
    ensures var after := Payment.Initiate(store, b, transactionId, gateway).store;
            Payment.StatusOf(after, transactionId) == Payment.Found(Payment.PendingPayment(b, transactionId))
  {
    var after := Payment.Initiate(store, b, transactionId, gateway).store;
    var n := |store.payments|;
    assert after.payments[n] == Payment.PendingPayment(b, transactionId);
    forall i | 0 <= i < n
      ensures !Payment.HasTransaction(after.payments[i], Some(transactionId))
    {
      assert after.payments[i] == store.payments[i];
      assert store.payments[i] in store.payments;
    }
    var first := Payment.FirstWithTransaction(after.payments, Some(transactionId));
    assert Payment.HasTransaction(after.payments[n], Some(transactionId));
    var k :| 0 <= k < |after.payments| && after.payments[k] == first.value
             && Payment.HasTransaction(after.payments[k], Some(transactionId))
             && forall j :: 0 <= j < k ==> !Payment.HasTransaction(after.payments[j], Some(transactionId));
    assert k == n;
  }

  /** After a confirming webhook, `/status` reports the same payment, now paid. */
  lemma StatusAfterConfirm(store: Store, b: Payment.PaymentBody, now: Time, addMonth: Time -> Time)
    requires Payment.Confirms(b.status) && b.transactionId.Some?
    requires Payment.FirstWithTransaction(store.payments, b.transactionId).Some?
    ensures var before := Payment.FirstWithTransaction(store.payments, b.transactionId).value;
            var after := Payment.Webhook(store, b, now, addMonth).store;
            Payment.StatusOf(after, b.transactionId.value) == Payment.Found(before.(status := Paid))
  {
    Payment.FirstAfterMarkPaid(store.payments, b.transactionId);
  }
}

=== FILE: payment.dfy ===
/**
 The mobile-money payment handler: `/initiate` records a pending payment and
 asks a provider (CinetPay, FedaPay or PayDunya) for a payment page,
 `/webhook` confirms a payment and grants the entitlement it paid for, and
 `/status/<id>` looks a payment up. The transaction id (clock and randomness),
 the provider call, `NOW()` and `NOW() + INTERVAL '1 month'` are parameters.
 */
module Payment {
  import opened Js
  import opened Tables

  const BookDescription := "Achat LangageNeo"
  const SubscriptionDescription := "Abonnement Neo-Lab"
  const StatusPrefix := "/status/"

  datatype Provider = CinetPay | FedaPay | PayDunya

  /** The `provider` field as the handler's `if … else if` chain reads it. */
  function ProviderNamed(name: string): Option<Provider> {
    if name == "cinetpay" then Some(CinetPay)
    else if name == "fedapay" then Some(FedaPay)
    else if name == "paydunya" then Some(PayDunya)
    else None
  }

  /** The parsed JSON body; each route reads the fields it needs. */
  datatype PaymentBody = PaymentBody(
    userId: Option<UserId>,
    amount: Option<real>,
    paymentType: Option<string>,
    provider: Option<string>,
    phoneNumber: Option<string>,
    operator: Option<string>,
    transactionId: Option<string>,
    status: Option<string>)

  /** The arguments of the provider helper; fields a helper is not given are `None`. */
  datatype GatewayCall = GatewayCall(
    provider: Provider, transactionId: string, amount: real,
    phoneNumber: Option<string>, operator: Option<string>, description: string)

  /** The provider's answer, or the exception its call rethrew. */
  datatype GatewayReply = Created(paymentUrl: string) | Failed

  datatype PaymentResponse =
    | Preflight
    | MissingData
    | Initiated(transactionId: string, paymentUrl: string)
    | Confirmed
    | Received
    | Found(payment: PaymentRow)
    | TransactionNotFound
    | RouteNotFound
    | ServerError
  {
    function StatusCode(): int {
      match this
      case MissingData => 400
      case TransactionNotFound | RouteNotFound => 404
      case ServerError => 500
      case _ => 200
    }
  }

  datatype Outcome = Outcome(response: PaymentResponse, store: Store)

  /** The validation `!userId || !amount || !paymentType || !provider || !phoneNumber` passes. */
  predicate ValidInitiation(b: PaymentBody) {
    && TruthyString(b.userId)
    && TruthyNumber(b.amount)
    && TruthyString(b.paymentType)
    && TruthyString(b.provider)
    && TruthyString(b.phoneNumber)
  }

  /** The description every provider is given. */
  function Description(paymentType: string): (d: string)
    ensures d == BookDescription <==> paymentType == BookPurchase
    ensures d == SubscriptionDescription <==> paymentType != BookPurchase
  {
    if paymentType == BookPurchase then BookDescription else SubscriptionDescription
  }

  /** The pending row `/initiate` inserts. */
  function PendingPayment(b: PaymentBody, transactionId: string): PaymentRow
    requires ValidInitiation(b)
  {
    PaymentRow(b.userId.value, transactionId, b.amount.value, b.operator, b.paymentType.value, Pending)
  }

  /** The call made to the named provider, if it is one of the three known ones. */
  function GatewayCallFor(b: PaymentBody, transactionId: string): (c: Option<GatewayCall>)
    requires ValidInitiation(b)
    ensures c.Some? <==> ProviderNamed(b.provider.value).Some?
    ensures c.Some? ==>
              && c.value.provider == ProviderNamed(b.provider.value).value
              && c.value.transactionId == transactionId
              && c.value.amount == b.amount.value
              && c.value.description == Description(b.paymentType.value)
              && c.value.phoneNumber == (if c.value.provider == PayDunya then None else b.phoneNumber)
              && c.value.operator == (if c.value.provider == CinetPay then b.operator else None)
  {
    var description := Description(b.paymentType.value);
    match ProviderNamed(b.provider.value)
    case None => None
    case Some(CinetPay) =>
      Some(GatewayCall(CinetPay, transactionId, b.amount.value, b.phoneNumber, b.operator, description))
    case Some(FedaPay) =>
      Some(GatewayCall(FedaPay, transactionId, b.amount.value, b.phoneNumber, None, description))
    case Some(PayDunya) =>
      Some(GatewayCall(PayDunya, transactionId, b.amount.value, None, None, description))
  }

  /**
   `POST /initiate`. The pending row is inserted before the provider is
   called, so it stays when the provider is unknown (`paymentResponse` is
   undefined) or its call throws; both answer 500.
   */
  function Initiate(store: Store, b: PaymentBody, transactionId: string, gateway: GatewayCall -> GatewayReply)
    : (out: Outcome)
    ensures !ValidInitiation(b) <==> out.response == MissingData
    ensures !ValidInitiation(b) ==> out.store == store
    ensures ValidInitiation(b) ==>
              && out.store.payments == store.payments + [PendingPayment(b, transactionId)]
              && out.store.bookAccess == store.bookAccess
              && out.store.subscriptions == store.subscriptions
              && out.store.payments[|store.payments|].status == Pending
    ensures ValidInitiation(b) ==>
              (out.response.Initiated? <==>
                 GatewayCallFor(b, transactionId).Some? && gateway(GatewayCallFor(b, transactionId).value).Created?)
    ensures out.response.Initiated? ==>
              && out.response.transactionId == transactionId
              && out.response.paymentUrl == gateway(GatewayCallFor(b, transactionId).value).paymentUrl
    ensures ValidInitiation(b) && !out.response.Initiated? ==> out.response == ServerError
    ensures out.response.StatusCode() == 200 || out.response == MissingData || out.response == ServerError
  {
    if !ValidInitiation(b) then
      Outcome(MissingData, store)
    else
      var stored := store.(payments := store.payments + [PendingPayment(b, transactionId)]);
      match GatewayCallFor(b, transactionId)
      case None => Outcome(ServerError, stored)
      case Some(call) =>
        match gateway(call)
        case Failed => Outcome(ServerError, stored)
        case Created(url) => Outcome(Initiated(transactionId, url), stored)
  }

  /** An unknown provider name still leaves the pending row behind, and the answer is a 500. */
  lemma UnknownProviderKeepsPending(store: Store, b: PaymentBody, transactionId: string,
                                    gateway: GatewayCall -> GatewayReply)
    requires ValidInitiation(b) && ProviderNamed(b.provider.value).None?
    ensures var out := Initiate(store, b, transactionId, gateway);
            && out.response.StatusCode() == 500
            && out.store.payments == store.payments + [PendingPayment(b, transactionId)]
  {
  }

  /** `WHERE transaction_id = ${id}`; an absent id is bound as NULL and matches nothing. */
  predicate HasTransaction(p: PaymentRow, transactionId: Option<string>) {
    transactionId.Some? && p.transactionId == transactionId.value
  }

  /** `UPDATE payments SET status = 'paid' WHERE transaction_id = …`. */
  function MarkPaid(payments: seq<PaymentRow>, transactionId: Option<string>): (updated: seq<PaymentRow>)
    ensures |updated| == |payments|
    ensures forall i :: 0 <= i < |payments| ==>
              && updated[i].(status := payments[i].status) == payments[i]
              && (HasTransaction(payments[i], transactionId) ==> updated[i].status == Paid)
              && (!HasTransaction(payments[i], transactionId) ==> updated[i] == payments[i])
  {
    if payments == [] then []
    else
      var p := payments[0];
      [if HasTransaction(p, transactionId) then p.(status := Paid) else p]
        + MarkPaid(payments[1..], transactionId)
  }

  /**
   `(SELECT * FROM payments WHERE transaction_id = …)[0]`. The query has no
   `ORDER BY`; the model takes the earliest inserted match.
   */
  function FirstWithTransaction(payments: seq<PaymentRow>, transactionId: Option<string>): (r: Option<PaymentRow>)
    ensures r.None? <==> forall i :: 0 <= i < |payments| ==> !HasTransaction(payments[i], transactionId)
    ensures r.Some? ==>
              exists i :: 0 <= i < |payments| && payments[i] == r.value
                          && HasTransaction(payments[i], transactionId)
                          && forall j :: 0 <= j < i ==> !HasTransaction(payments[j], transactionId)
  {
    if payments == [] then None
    else if HasTransaction(payments[0], transactionId) then Some(payments[0])
    else
      var r := FirstWithTransaction(payments[1..], transactionId);
      assert forall i :: 1 <= i < |payments| ==> payments[i] == payments[1..][i - 1];
      if r.Some? then
        var k :| 0 <= k < |payments[1..]| && payments[1..][k] == r.value
                 && HasTransaction(payments[1..][k], transactionId)
                 && forall j :: 0 <= j < k ==> !HasTransaction(payments[1..][j], transactionId);
        assert payments[k + 1] == r.value;
        r
      else r
  }

  /** The payment a webhook reads back after its update is the first match, now paid. */
  lemma {:induction false} FirstAfterMarkPaid(payments: seq<PaymentRow>, transactionId: Option<string>)
    ensures var before := FirstWithTransaction(payments, transactionId);
            var after := FirstWithTransaction(MarkPaid(payments, transactionId), transactionId);
            && (before.None? <==> after.None?)
            && (before.Some? ==> after == Some(before.value.(status := Paid)))
    decreases |payments|
  {
    if payments != [] {
      var updated := MarkPaid(payments, transactionId);
      assert updated[1..] == MarkPaid(payments[1..], transactionId);
      FirstAfterMarkPaid(payments[1..], transactionId);
    }
  }

  /** The webhook statuses that confirm a payment. */
  predicate Confirms(status: Option<string>) {
    status == Some("SUCCESS") || status == Some("ACCEPTED")
  }

  /** The entitlement row a confirmed payment of `p` grants, if its type grants one. */
  function GrantFor(store: Store, p: PaymentRow, now: Time, addMonth: Time -> Time): Store {
    if p.paymentType == BookPurchase then
      store.(bookAccess := store.bookAccess + [BookAccessRow(p.userId, FullAccess, now)])
    else if p.paymentType == SubscriptionType then
      store.(subscriptions := store.subscriptions
               + [SubscriptionRow(p.userId, now, addMonth(now), Active, p.amount)])
    else store
  }

  /**
   `POST /webhook`. A confirming status marks every payment with the
   transaction id paid, reads the first back and appends the entitlement
   its type grants; an unknown id fails reading `payment_type` of undefined.
   */
  function Webhook(store: Store, b: PaymentBody, now: Time, addMonth: Time -> Time): (out: Outcome)
    ensures !Confirms(b.status) ==> out == Outcome(Received, store)
    ensures Confirms(b.status) ==> out.store.payments == MarkPaid(store.payments, b.transactionId)
    ensures Confirms(b.status) && FirstWithTransaction(store.payments, b.transactionId).None? ==>
              out == Outcome(ServerError, store)
    ensures Confirms(b.status) && FirstWithTransaction(store.payments, b.transactionId).Some? ==>
              var p := FirstWithTransaction(store.payments, b.transactionId).value;
              && out.response == Confirmed
              && (p.paymentType == BookPurchase ==>
                    && out.store.bookAccess == store.bookAccess + [BookAccessRow(p.userId, FullAccess, now)]
                    && out.store.subscriptions == store.subscriptions)
              && (p.paymentType == SubscriptionType ==>
                    && out.store.subscriptions
                       == store.subscriptions + [SubscriptionRow(p.userId, now, addMonth(now), Active, p.amount)]
                    && out.store.bookAccess == store.bookAccess)
              && (p.paymentType != BookPurchase && p.paymentType != SubscriptionType ==>
                    out.store.bookAccess == store.bookAccess && out.store.subscriptions == store.subscriptions)
  {
    if !Confirms(b.status) then
      Outcome(Received, store)
    else
      var updated := MarkPaid(store.payments, b.transactionId);
      var stored := store.(payments := updated);
      FirstAfterMarkPaid(store.payments, b.transactionId);
      if FirstWithTransaction(store.payments, b.transactionId).None? then
        assert updated == store.payments;
        Outcome(ServerError, stored)
      else
        match FirstWithTransaction(updated, b.transactionId)
        case None => Outcome(ServerError, stored)
        case Some(payment) => Outcome(Confirmed, GrantFor(stored, payment, now, addMonth))
  }

  /** `GET /status/<id>`: the first payment with that transaction id. */
  function StatusOf(store: Store, transactionId: string): (resp: PaymentResponse)
    ensures resp == TransactionNotFound <==>
              forall p :: p in store.payments ==> p.transactionId != transactionId
    ensures resp != TransactionNotFound ==>
              && resp.Found?
              && resp.payment in store.payments
              && resp.payment.transactionId == transactionId
              && resp.payment == FirstWithTransaction(store.payments, Some(transactionId)).value
  {
    match FirstWithTransaction(store.payments, Some(transactionId))
    case None => TransactionNotFound
    case Some(p) => Found(p)
  }

  datatype PaymentRequest = PaymentRequest(httpMethod: HttpMethod, path: string, body: PaymentBody)

  /** The handler, for a store that answers every query. */
  function Handle(req: PaymentRequest, store: Store, transactionId: string,
                  gateway: GatewayCall -> GatewayReply, now: Time, addMonth: Time -> Time): (out: Outcome)
    ensures req.httpMethod == OPTIONS ==> out == Outcome(Preflight, store)
    ensures req.httpMethod == POST && req.path == "/initiate" ==>
              out == Initiate(store, req.body, transactionId, gateway)
    ensures req.httpMethod == POST && req.path == "/webhook" ==>
              out == Webhook(store, req.body, now, addMonth)
    ensures req.httpMethod == GET && StartsWith(req.path, StatusPrefix) ==>
              out == Outcome(StatusOf(store, req.path[|StatusPrefix|..]), store)
    ensures out.store != store ==> req.httpMethod == POST && (req.path == "/initiate" || req.path == "/webhook")
    ensures out.response == RouteNotFound <==>
              && req.httpMethod != OPTIONS
              && !(req.httpMethod == POST && (req.path == "/initiate" || req.path == "/webhook"))
              && !(req.httpMethod == GET && StartsWith(req.path, StatusPrefix))
  {
    if req.httpMethod == OPTIONS then Outcome(Preflight, store)
    else if req.httpMethod == POST && req.path == "/initiate" then
      Initiate(store, req.body, transactionId, gateway)
    else if req.httpMethod == POST && req.path == "/webhook" then
      Webhook(store, req.body, now, addMonth)
    else if req.httpMethod == GET && StartsWith(req.path, StatusPrefix) then
      assert req.path == StatusPrefix + req.path[|StatusPrefix|..];
      RemoveFirstPrefix(StatusPrefix, req.path[|StatusPrefix|..]);
      Outcome(StatusOf(store, RemoveFirst(req.path, StatusPrefix)), store)
    else Outcome(RouteNotFound, store)
  }
}

=== FILE: tables.dfy ===
/**
 The three tables the book and payment handlers share, as sequences of rows
 in insertion order. SQL itself is not modelled: a `SELECT … WHERE` is a
 filter over the sequence, an `INSERT` an append, an `UPDATE` a map.
 */
module Tables {
  import opened Js

  type UserId = string

  /** A timestamp (`NOW()` and the `end_date` column), abstractly an integer. */
  type Time = int

  /** A row of `book_access`. */
  datatype BookAccessRow = BookAccessRow(userId: UserId, accessType: string, purchaseDate: Time)

  /** A row of `subscriptions`. */
  datatype SubscriptionRow = SubscriptionRow(
    userId: UserId, startDate: Time, endDate: Time, status: string, amount: real)

  /** A row of `payments`; `paymentMethod` holds the optional mobile-money operator. */
  datatype PaymentRow = PaymentRow(
    userId: UserId, transactionId: string, amount: real,
    paymentMethod: Option<string>, paymentType: string, status: string)

  datatype Store = Store(
    payments: seq<PaymentRow>,
    bookAccess: seq<BookAccessRow>,
    subscriptions: seq<SubscriptionRow>)

  /** `SELECT * … WHERE p`: the rows satisfying `p`, in table order. */
  function Where<T(!new)>(rows: seq<T>, p: T -> bool): (selected: seq<T>)
    ensures |selected| <= |rows|
    ensures forall r :: r in selected <==> r in rows && p(r)
  {
    if rows == [] then []
    else (if p(rows[0]) then [rows[0]] else []) + Where(rows[1..], p)
  }

  const FullAccess := "full"
  const Active := "active"
  const Pending := "pending"
  const Paid := "paid"
  const BookPurchase := "book_purchase"
  const SubscriptionType := "subscription"
}
